=== FILE: README.md ===
# NICS firearm background-check table parser, modelled in Dafny

The modelled program reads the FBI's monthly NICS background-check report (a PDF).
For each page it reads the month in the header and the grid of per-state counts. It
turns the counts into integers and checks that the report's duplicated totals
reconcile. It then concatenates the pages into one dataset with the per-page aggregate
rows removed. Finally it splits each month key into year and month number and drops
five territories.

This project models that pipeline as pure functions over immutable data:

- `results.dfy` (`Results`): `Option`, `Result`, `Outcome`.
- `text.dfy` (`Text`): decimal digits, and `Split`/`Join` on a one-character separator.
- `schema.dfy` (`Schema`): the 27 column names, `Row` (month, state label, 25 numeric
  fields, each present or absent), and `Error`, one constructor per failure the program raises.
- `month_label.dfy` (`MonthLabel`): `parse_month`, from `"<FullMonthName> - <YYYY>"` to `"YYYY-MM"`.
- `coercion.dfy` (`Coercion`): `parse_value`. A null or empty cell is absent; any other cell
  has its commas removed and is read as an integer. It also has a report-style formatter
  (`FormatCount`), so that coercion is shown to read back every printed count.
- `validate.dfy` (`Validate`): `chk_data`, the vertical and horizontal doubling checks. It
  also has their "parts add up to the total" reading, and a proof that the `totals` column's
  vertical check is implied by the other checks when the aggregate row has a totals cell.
- `page.dfy` (`Page`): the non-geometric part of `parse_pdf_page`. This binds the grid to the
  schema, coerces cells, applies the `"llinois"` fix, and wraps a check failure as
  `InvalidPage(month)`.
- `dataset.dfy` (`Dataset`): `parse_pdf` (page-ordered concatenation, `"Totals"` rows
  dropped), the year/month split and the territory filter.

The PDF layer is not modelled. For each page it produces the header text and the grid rows
(each cell null or a string); here those arrive as a `PageInput`.

Behaviours of the code worth knowing:
- **Territory name.** The territory filter (pdf_parse.py:173) drops `"Mariana Islands"`.
- **Where the check runs.** Reconciliation runs per page (pdf_parse.py:156), before the
  pages are concatenated.
- **Empty page grid.** Binding the 27 column names (pdf_parse.py:150) fails on a frame that
  has no columns, so such a page never reaches `chk_data`. The model reports this as
  `ShapeMismatch`. `chk_data`'s own "No data found." (`NoData`) is modelled, but the page
  pipeline cannot reach it.
- **Zero pages.** A document with no pages fails, because there is nothing to concatenate
  (pdf_parse.py:164; `NoPages`).
- **The vertical check counts the aggregate row.** The column sum at pdf_parse.py:114
  includes the aggregate row, so a state row of 4 over an aggregate of 2 fails (4 + 2 is not
  2 × 2), while a state row of 2 over an aggregate of 2 passes (`Validate.VerticalExample`).
- **Ragged grids.** Short grid rows are padded with null cells up to the longest row. The
  longest row must be exactly 26 cells (state plus 25 numbers), or the page fails with
  `ShapeMismatch`.

## Model

| member | source | states |
|---|---|---|
| Schema.ColumnsShape | pdf_parse.py:10-38 | The schema has month and state first, then 25 numeric fields from `permit` to `totals`, with `totals` last |
| MonthLabel.ParseMonth | pdf_parse.py:93-95 | On failure the error is `BadMonth` carrying the unparsed text; on success the key is `YYYY-MM`: four digits that are not `0000`, a dash, and a month number 01–12 |
| MonthLabel.ParseMonthAcceptsHeaders | pdf_parse.py:93-95 | For every month and every valid four-digit year, `"<FullMonthName> - <YYYY>"` parses to the year, a dash and the zero-padded month number |
| MonthLabel.ParseMonthOnlyHeaders | pdf_parse.py:93-95 | Anything that parses is such a header, and its key is built from that header's month and year |
| MonthLabel.ParseMonthSucceedsIffHeader | pdf_parse.py:93-95 | Parsing succeeds exactly on well-formed headers, in both directions |
| MonthLabel.MarchExample | pdf_parse.py:93-95 | `"March - 2021"` gives `"2021-03"` |
| Coercion.StripCommas | pdf_parse.py:101 | No comma is left in the result |
| Coercion.StripCommasLength | pdf_parse.py:101 | Only commas are removed: the result is shorter by exactly the number of commas |
| Coercion.StripCommasAppend | pdf_parse.py:101 | Comma removal distributes over concatenation |
| Coercion.StripCommasKeepsCommaFree | pdf_parse.py:101 | Text without commas is left unchanged |
| Coercion.ParseInt | pdf_parse.py:101 | A literal that reads is non-empty and holds no comma; a literal starting with `-` reads as a value at most 0, any other as a value at least 0 |
| Coercion.ParseIntAcceptsExactlyLiterals | pdf_parse.py:101 | Text reads as an integer exactly when it is an integer literal: one or more ASCII digits, optionally after a single `+` or `-`; anything else is refused |
| Coercion.ParseValueRejectsNonLiterals | pdf_parse.py:97-101 | A non-empty cell whose comma-free text is not an integer literal fails with `BadInt` |
| Coercion.DecimalRejected | pdf_parse.py:97-101 | `"1.5"` fails with `BadInt` |
| Coercion.ParseIntReadsDigits | pdf_parse.py:101 | Every unsigned decimal numeral reads as its value, and likewise after `+`; after `-` it reads as the negated value |
| Coercion.ParseValue | pdf_parse.py:97-101 | The result is absent exactly when the cell is null or `""`, so a `","` cell is an error, not absent. Every failure is `BadInt`. A present result is the comma-free text read as an integer, and a non-empty cell whose comma-free text is an integer literal always yields that integer (so `"1,2,3"` gives 123 and `"+5"` gives 5) |
| Coercion.FormatCountRoundTrip | pdf_parse.py:97-101 | Every integer, printed with thousands separators and an optional minus sign, coerces back to itself |
| Coercion.GroupedReadsBack | pdf_parse.py:100-101 | Removing the commas from a comma-grouped count leaves a non-empty digit string whose value is the count |
| Coercion.ParseIntIgnoresLeadingZero | pdf_parse.py:101 | A leading zero does not change the value read, bare or after `+` or `-` (so `"-05"` reads as -5); with `ParseIntReadsDigits` this fixes the value of every literal |
| Coercion.ThousandsExample | pdf_parse.py:97-101 | `"1,234"` coerces to 1234 |
| Validate.VerticalFrom | pdf_parse.py:109-118 | The vertical checks pass iff every column from the given one on passes; otherwise the first failing column, in schema order, is the one named |
| Validate.HorizontalFrom | pdf_parse.py:120-128 | The horizontal checks pass iff every row from the given one on passes; otherwise the first failing row's state label is the one named |
| Validate.ChkData | pdf_parse.py:103-128 | A table fails with `NoData` exactly when it is empty. A non-empty table failing some vertical check fails with `VerticalMismatch`. A table passes iff it is non-empty and every vertical and horizontal check holds. A vertical failure names the first failing column. A horizontal failure names the first failing row, and happens only after every vertical check has passed |
| Validate.VerticalOkIffColumnAddsUp | pdf_parse.py:109-118 | "Column sum, aggregate included, equals twice the aggregate cell" holds iff the aggregate cell is present and the rows above it sum to it |
| Validate.HorizontalOkIffRowAddsUp | pdf_parse.py:120-128 | "Row sum, totals included, equals twice the totals" holds iff the 24 category fields sum to the totals (absent values as 0) |
| Validate.AbsentAggregateFails | pdf_parse.py:113-118 | An absent aggregate cell fails that column's vertical check and hence the whole check |
| Validate.ChkDataPassIffBalanced | pdf_parse.py:103-128 | A table passes iff it is non-empty, every column's rows above the aggregate sum to the aggregate cell, and every row's categories sum to its totals |
| Validate.VerticalExample | pdf_parse.py:109-118 | In a two-row table, a state row holding 2 over an aggregate holding 2 passes that column's vertical check; a state row holding 4 over an aggregate of 2 fails it |
| Validate.SumExchange | pdf_parse.py:114-121 | Summing the leading fields of a block of rows row by row gives the same total as summing them column by column |
| Validate.TotalsVerticalFollows | pdf_parse.py:109-128 | If the 24 category columns and every row pass their checks and the aggregate totals cell is present, the `totals` column's vertical check passes too |
| Page.FixState | pdf_parse.py:155 | The state label changes iff it is `"llinois"`, and then it becomes `"Illinois"` |
| Page.CoerceCells | pdf_parse.py:152 | The coercion of a run of cells succeeds iff every cell coerces, and each result value is that cell's coercion; failure is `BadInt` |
| Page.BindRow | pdf_parse.py:147-155 | A bound row carries the page's month and the extracted state label (after the Illinois fix), and field k is the coercion of cell k+1; it fails iff some numeric cell does not coerce |
| Page.BindRows | pdf_parse.py:147-152 | Every grid row is bound, null-padded to 26 cells and in order; the result fails iff one of them fails |
| Page.Width | pdf_parse.py:147-150 | The frame width is the length of the longest grid row: no row is longer, and some row has that length |
| Page.BuildTable | pdf_parse.py:147-159 | The table is accepted exactly when the grid is non-empty and 26 cells wide, every row binds, and the bound table passes the check; the accepted table is the bound one, with one row per grid row, each carrying the month. An empty grid or one of another width fails with `ShapeMismatch`; a cell that does not coerce fails with `BadInt`; a bound table failing the check fails with `InvalidPage(month)` |
| Page.PageAcceptedIffBalanced | pdf_parse.py:103-159 | A grid is accepted exactly when it is 26 cells wide, every numeric cell coerces, every column's rows above the aggregate sum to the aggregate cell and every row's categories sum to its totals |
| Page.ZeroPageAccepted | pdf_parse.py:147-159 | A page holding only an aggregate row of `"0"` counts is accepted, its cells read as 0 |
| Page.ParsePage | pdf_parse.py:130-159 | A bad header fails with `BadMonth(text)` before the grid is looked at. A page is accepted exactly when its header parses and its grid is accepted. Every row of an accepted page carries, as a `YYYY-MM` key, the month and year of the `"<FullMonthName> - <YYYY>"` heading, and the table passes the check |
| Page.FailedCheckRejectsPage | pdf_parse.py:156-157 | A page whose bound table fails the check is rejected as a whole with `InvalidPage(month)` |
| Schema.Message | pdf_parse.py:103-157 | The program writes its own text exactly for an empty table, a vertical or horizontal mismatch, and a rejected page |
| Schema.InvalidPageMessage | pdf_parse.py:157 | The message of a rejected page is `"Invalid data for "` followed by its month key |
| Page.WideGridRejected | pdf_parse.py:147-150 | A grid row longer than 26 cells rejects the page with `ShapeMismatch` |
| Dataset.Filter | pdf_parse.py:166 | Every kept element comes from the input and is accepted by the predicate; every accepted input element is kept |
| Dataset.FilterAppend | pdf_parse.py:164-166 | Filtering a concatenation is the concatenation of the filtered parts, so relative order is kept |
| Dataset.FilterSingleton | pdf_parse.py:166 | A single element is kept whole if accepted and dropped otherwise; with `FilterAppend` this fixes every result |
| Dataset.FilterMultiplicity | pdf_parse.py:166 | Each accepted element occurs in the result exactly as often as in the input; no other element occurs |
| Results.Traverse | pdf_parse.py:164 | On success there is one result per element, each that element's result; on failure the error is that of the first failing element, in order |
| Dataset.ParsePdf | pdf_parse.py:161-166 | No pages means `NoPages`. Success means every page parsed and no output row is labelled `"Totals"`. Failure carries the first failing page's error. The page parser is a parameter; the pipeline passes `Page.ParsePage` |
| Dataset.DropTotalsPageByPage | pdf_parse.py:164-166 | Dropping `"Totals"` rows from the concatenation is the same as dropping them page by page and concatenating in page order |
| Dataset.ParsePdfConcatenatesPages | pdf_parse.py:161-166 | When every page parses, the document is the page tables, each without its `"Totals"` rows, concatenated in page order |
| Dataset.DropTotalsOfPage | pdf_parse.py:166 | A page whose only `"Totals"` row is the last loses exactly that row |
| Dataset.DropTotalsKeepsStateRows | pdf_parse.py:164-166 | With one trailing `"Totals"` row per page, the result is every page's state rows, page after page |
| Dataset.Annotate | pdf_parse.py:171-172 | The year is a dash-free prefix of the key; it is the whole key when the key has no dash. The month number is present exactly when the key has a dash, is dash-free, and follows the year and a dash at the start of the key, running up to the end of the key or the next dash |
| Dataset.SplitMonthKey | pdf_parse.py:171-172 | A parsed key splits at `"-"` into a 4-character year and a 2-character month number that rejoin to the key |
| Dataset.Finalize | pdf_parse.py:171-173 | Every output record is the annotation of an input row and is not a territory; every input row that is not a territory is in the output |
| Dataset.FinalizeAppend | pdf_parse.py:171-173 | Finalizing a concatenation is the concatenation of the finalized parts, so row order is kept |
| Dataset.FinalizeSingleton | pdf_parse.py:171-173 | A single row becomes its one annotated record, or nothing when it is a territory; with `FinalizeAppend` this fixes order and multiplicity |
| Dataset.FinalizeRecords | pdf_parse.py:171-173 | Every output record comes from an input row, is not a territory, and has a year and month number that rejoin to its key; every non-territory row is kept |
| Dataset.BuildDataset | pdf_parse.py:161-173 | No pages means `NoPages`. The dataset is built exactly when every page parses, and otherwise carries the first failing page's error. No record is a territory or an aggregate row |
| Dataset.BuildDatasetConcatenates | pdf_parse.py:161-173 | When every page parses, the dataset is each page's rows without its `"Totals"` rows, page after page, annotated with year and month number and with territory rows dropped |
| Dataset.BuildDatasetRecords | pdf_parse.py:164-173 | Every record of the final dataset has a well-formed key split into its parts, and is neither an aggregate row nor a territory |
| Text.Split | pdf_parse.py:171-172 | Splitting gives at least one piece, no piece contains the separator, and there is exactly one piece iff the text has no separator |
| Text.JoinSplit | pdf_parse.py:171-172 | Splitting on a separator and joining the pieces back gives the original text |

## Left out

- **Page geometry** (pdf_parse.py:130-145). Cropping the header and body bands, `extract_text`, `extract_table` with the text strategy, and the vertical line at the leftmost glyph all belong to the PDF library. The header text and the grid rows are inputs instead. When `extract_table` finds no table at all it returns nothing, and the program then fails on iteration; the model has no such input.
- **File handling and export** (pdf_parse.py:162, 168-170, 179). Loading the PDF, opening `NICS.pdf` and writing the CSV are I/O.
- **State abbreviations** (pdf_parse.py:40-91, 174-178). The `state_abbr` column and its 50-entry table are not modelled. The column is assigned from a fresh series indexed 0..n-1 onto a frame whose index has gaps after the row filters. Pandas aligns by index label, so the column does not carry a row-by-row mapping. The lookup at line 176 also raises `KeyError` for any kept state label outside the table, such as a null state cell or another mis-extracted label, so the program can fail where `Dataset.BuildDataset` succeeds.
- **Frame internals.** pandas dtype inference after `applymap`, the `numeric_only` fallback of the row sum (the model sums exactly the 25 numeric fields) and `reset_index` are not modelled.
- Validate.ChkData: sums are exact integers. pandas holds a column with absent cells as 64-bit floats and a full column as 64-bit integers, so values beyond 2^53 (or 2^63) may compare differently in the source.
- MonthLabel.ParseMonth: accepts only exact-case English month names, exactly `" - "` and four ASCII digits. The source's `strptime` also accepts other letter case, runs of whitespace around the dash and Unicode digits. The key's year is the header's four digits verbatim. This is `%Y` zero-padded to four places; some platforms' `strftime` does not pad years below 1000.
- Coercion.ParseValue: after comma removal, accepts only an optional `+`/`-` followed by ASCII digits. Python's `int` also accepts surrounding whitespace, underscores between digits and Unicode digits.
- **Error text.** `BadMonth`, `BadInt`, `ShapeMismatch` and `NoPages` carry no text: the messages come from `strptime`, `int` and pandas, not from the program. Their wording depends on the input. For example, `strptime` reports leftover text after a valid heading, and a year 0, with messages of their own; `int` quotes the offending cell, and which cell it reports depends on the order in which `applymap` visits cells.

=== FILE: coercion.dfy ===
/** Cell coercion: a raw table cell becomes an absent value or an integer. */
module Coercion {
  import opened Results
  import opened Text
  import opened Schema

  /** `s.replace(",", "")`: the text with every comma removed. */
  function StripCommas(s: string): (r: string)
    ensures ',' !in r
    ensures |r| <= |s|
  {
    if |s| == 0 then ""
    else (if s[0] == ',' then "" else [s[0]]) + StripCommas(s[1..])
  }

  /** Only commas are removed: the result is one character shorter per comma. */
  lemma {:induction false} StripCommasLength(s: string)
    ensures |StripCommas(s)| == |s| - multiset(s)[',']
  {
    if |s| > 0 {
      StripCommasLength(s[1..]);
      assert s == [s[0]] + s[1..];
    }
  }

  lemma {:induction false} StripCommasAppend(a: string, b: string)
    ensures StripCommas(a + b) == StripCommas(a) + StripCommas(b)
  {
    if |a| == 0 {
      assert a + b == b;
    } else {
      assert (a + b)[0] == a[0] && (a + b)[1..] == a[1..] + b;
      StripCommasAppend(a[1..], b);
    }
  }

  lemma {:induction false} StripCommasKeepsCommaFree(s: string)
    requires ',' !in s
    ensures StripCommas(s) == s
  {
    if |s| > 0 {
      StripCommasKeepsCommaFree(s[1..]);
      assert [s[0]] + s[1..] == s;
    }
  }

  /** An integer literal: one or more ASCII digits, optionally after a single '+' or '-'. */
  predicate IsIntLiteral(s: string) {
    || (|s| > 0 && AllDigits(s))
    || (|s| > 1 && (s[0] == '+' || s[0] == '-') && AllDigits(s[1..]))
  }

  /** Reads an integer literal: an optional '+' or '-' followed by one or more
      ASCII digits; leading zeros are allowed. Anything else is None. */
  function ParseInt(s: string): (r: Option<int>)
    ensures r.Some? ==> |s| > 0 && ',' !in s
    ensures r.Some? && s[0] == '-' ==> r.value <= 0
    ensures r.Some? && s[0] != '-' ==> r.value >= 0
  {
    if |s| > 0 && (s[0] == '-' || s[0] == '+') then
      var d := s[1..];
      if |d| > 0 && AllDigits(d) then
        var v: int := DigitsValue(d);
        Some(if s[0] == '-' then -v else v)
      else None
    else if |s| > 0 && AllDigits(s) then Some(DigitsValue(s))
    else None
  }

  /** Coerces one cell. A null or empty cell is absent, which is distinct from 0;
      any other text has its commas removed and must then be an integer literal. */
  function ParseValue(cell: Option<string>): (r: Result<Option<int>, Error>)
    ensures r == Success(None) <==> cell == None || cell == Some("")
    ensures r.Failure? ==> r.error == BadInt
    ensures r.Success? && r.value.Some? ==> ParseInt(StripCommas(cell.value)) == r.value
    ensures cell.Some? && cell.value != "" && ParseInt(StripCommas(cell.value)).Some? ==>
              r == Success(ParseInt(StripCommas(cell.value)))
  {
    if cell.None? || cell.value == "" then Success(None)
    else
      match ParseInt(StripCommas(cell.value))
      case Some(n) => Success(Some(n))
      case None => Failure(BadInt)
  }

  /** Exactly the integer literals read; any other text is refused. */
  lemma ParseIntAcceptsExactlyLiterals(s: string)
    ensures ParseInt(s).Some? <==> IsIntLiteral(s)
  {
    if |s| > 0 && (s[0] == '+' || s[0] == '-') {
      assert !IsDigit(s[0]);
    }
  }

  /** A non-empty cell whose comma-free text is not an integer literal is an error. */
  lemma ParseValueRejectsNonLiterals(text: string)
    requires text != "" && !IsIntLiteral(StripCommas(text))
    ensures ParseValue(Some(text)) == Failure(BadInt)
  {
    ParseIntAcceptsExactlyLiterals(StripCommas(text));
  }

  /** A worked example: a decimal fraction is not an integer literal. */
  lemma DecimalRejected()
    ensures ParseValue(Some("1.5")) == Failure(BadInt)
  {
    assert StripCommas("1.5") == "1.5" by {
      assert "1.5"[1..] == ".5" && ".5"[1..] == "5" && "5"[1..] == "";
    }
    assert !IsDigit("1.5"[1]);
    ParseValueRejectsNonLiterals("1.5");
  }

  /** Every unsigned decimal numeral reads as its value, with or without a sign. */
  lemma ParseIntReadsDigits(n: nat)
    ensures ParseInt(Digits(n)) == Some(n)
    ensures ParseInt("+" + Digits(n)) == Some(n)
    ensures ParseInt("-" + Digits(n)) == Some(-(n as int))
  {
    var d := Digits(n);
    assert IsDigit(d[0]);
    assert ("+" + d)[1..] == d && ("-" + d)[1..] == d;
  }

  /** Leading zeros do not change the value read, with or without a sign. */
  lemma ParseIntIgnoresLeadingZero(d: string)
    requires |d| > 0 && AllDigits(d)
    ensures ParseInt("0" + d) == ParseInt(d)
    ensures ParseInt("+0" + d) == ParseInt("+" + d)
    ensures ParseInt("-0" + d) == ParseInt("-" + d)
  {
    assert ("+0" + d)[1..] == "0" + d && ("+" + d)[1..] == d;
    assert ("-0" + d)[1..] == "0" + d && ("-" + d)[1..] == d;
    DigitsValueAppend("0", d);
    assert ("0" + d)[..1] == "0";
    assert DigitsValue("0") == 0 by {
      assert "0"[..0] == "";
    }
  }

  /** The decimal digits of `n`, most significant first, without padding. */
  function Digits(n: nat): (s: string)
    ensures |s| > 0 && AllDigits(s) && DigitsValue(s) == n
  {
    if n < 10 then
      var s := [DigitChar(n)];
      assert s[..0] == "";
      s
    else
      var s := Digits(n / 10) + [DigitChar(n % 10)];
      assert s[..|s| - 1] == Digits(n / 10);
      s
  }

  /** `k` as exactly three digits, zero-padded: one group of a thousands-separated number. */
  function Group3(k: nat): (s: string)
    requires k < 1000
    ensures |s| == 3 && AllDigits(s) && DigitsValue(s) == k
  {
    var s := [DigitChar(k / 100), DigitChar(k / 10 % 10), DigitChar(k % 10)];
    var t := s[..2];
    assert t[..1] == [s[0]] && [s[0]][..0] == "";
    assert DigitsValue([s[0]]) == k / 100;
    assert DigitsValue(t) == k / 100 * 10 + k / 10 % 10;
    assert k / 10 == k / 100 * 10 + k / 10 % 10;
    assert k == k / 10 * 10 + k % 10;
    s
  }

  /** `n` written the way the report prints counts, with a comma every three digits. */
  function Grouped(n: nat): (s: string)
    ensures |s| > 0 && IsDigit(s[0])
  {
    if n < 1000 then Digits(n) else Grouped(n / 1000) + "," + Group3(n % 1000)
  }

  /** Removing the separators from a grouped count leaves digits that read as the count. */
  lemma {:induction false} GroupedReadsBack(n: nat)
    ensures |StripCommas(Grouped(n))| > 0 && AllDigits(StripCommas(Grouped(n)))
    ensures DigitsValue(StripCommas(Grouped(n))) == n
  {
    if n < 1000 {
      StripCommasKeepsCommaFree(Digits(n));
    } else {
      var high, low := Grouped(n / 1000), Group3(n % 1000);
      assert Grouped(n) == high + "," + low;
      var h := StripCommas(high);
      GroupedReadsBack(n / 1000);
      StripCommasAppend(high + ",", low);
      StripCommasAppend(high, ",");
      StripCommasKeepsCommaFree(low);
      assert StripCommas(",") == "";
      assert StripCommas(Grouped(n)) == h + low;
      DigitsValueAppend(h, low);
      assert Pow10(3) == 1000;
      assert DigitsValue(h + low) == n / 1000 * 1000 + n % 1000;
    }
  }

  /** Any integer as the report prints it: a minus sign when negative, then grouped digits. */
  function FormatCount(n: int): string {
    if n < 0 then "-" + Grouped(-n) else Grouped(n)
  }

  /** Coercion reads back every printed count, separators included (so "1,234" is 1234). */
  lemma FormatCountRoundTrip(n: int)
    ensures ParseValue(Some(FormatCount(n))) == Success(Some(n))
  {
    GroupedReadsBack(if n < 0 then -n else n);
    if n < 0 {
      assert FormatCount(n) == "-" + Grouped(-n);
      StripCommasAppend("-", Grouped(-n));
      assert StripCommas("-") == "-";
      assert (StripCommas(FormatCount(n)))[1..] == StripCommas(Grouped(-n));
    } else {
      assert StripCommas(Grouped(n))[0] != '-' && StripCommas(Grouped(n))[0] != '+';
    }
  }

  lemma ThousandsExample()
    ensures ParseValue(Some("1,234")) == Success(Some(1234))
  {
    assert Group3(234) == "234";
    assert Grouped(1) == "1";
    assert FormatCount(1234) == "1,234";
    FormatCountRoundTrip(1234);
  }
}

=== FILE: dataset.dfy ===
/** Document assembly: page tables concatenated in page order, aggregate rows dropped,
    then the month key split into year and month number and territories filtered out. */
module Dataset {
  import opened Results
  import opened Text
  import opened Schema
  import opened MonthLabel
  import opened Validate
  import opened Page

  /** The elements of `xs` that `keep` accepts, in their original order. */
  function Filter<T>(xs: seq<T>, keep: T -> bool): (r: seq<T>)
    ensures |r| <= |xs|
    ensures forall i :: 0 <= i < |r| ==> r[i] in xs && keep(r[i])
    ensures forall i :: 0 <= i < |xs| && keep(xs[i]) ==> xs[i] in r
  {
    if |xs| == 0 then []
    else (if keep(xs[0]) then [xs[0]] else []) + Filter(xs[1..], keep)
  }

  /** Each accepted element is kept as often as it occurs, each other element never. */
  lemma {:induction false} FilterMultiplicity<T>(xs: seq<T>, keep: T -> bool)
    ensures forall x :: multiset(Filter(xs, keep))[x] == if keep(x) then multiset(xs)[x] else 0
  {
    if |xs| > 0 {
      FilterMultiplicity(xs[1..], keep);
      assert xs == [xs[0]] + xs[1..];
    }
  }

  /** A single element is kept or dropped whole; with FilterAppend this fixes every result. */
  lemma FilterSingleton<T>(x: T, keep: T -> bool)
    ensures Filter([x], keep) == if keep(x) then [x] else []
  {
    assert [x][1..] == [];
  }

  /** Filtering a concatenation filters each part and keeps the parts in order. */
  lemma {:induction false} FilterAppend<T>(a: seq<T>, b: seq<T>, keep: T -> bool)
    ensures Filter(a + b, keep) == Filter(a, keep) + Filter(b, keep)
  {
    if |a| == 0 {
      assert a + b == b;
    } else {
      assert (a + b)[1..] == a[1..] + b;
      FilterAppend(a[1..], b, keep);
    }
  }

  /** Nothing is dropped when everything is kept. */
  lemma {:induction false} FilterKeepsAll<T>(xs: seq<T>, keep: T -> bool)
    requires forall i :: 0 <= i < |xs| ==> keep(xs[i])
    ensures Filter(xs, keep) == xs
  {
    if |xs| > 0 {
      FilterKeepsAll(xs[1..], keep);
      assert [xs[0]] + xs[1..] == xs;
    }
  }

  /** The rows of a sequence of tables, table after table. */
  function Flatten(tables: seq<seq<Row>>): seq<Row> {
    if |tables| == 0 then [] else tables[0] + Flatten(tables[1..])
  }

  predicate NotTotals(r: Row) {
    !HasState(r, "Totals")
  }

  /** Drops each page's aggregate row, which carries the state label "Totals". */
  function DropTotals(rows: seq<Row>): seq<Row> {
    Filter(rows, NotTotals)
  }

  /** parse_pdf: every page's table, concatenated in page order, without the
      aggregate rows. A document with no pages has nothing to concatenate. The page
      parser is a parameter; the program's own is `ParsePage`. */
  function ParsePdf<P>(pages: seq<P>, parsePage: P -> Result<seq<Row>, Error>): (r: Result<seq<Row>, Error>)
    ensures |pages| == 0 ==> r == Failure(NoPages)
    ensures r.Success? ==> forall i :: 0 <= i < |pages| ==> parsePage(pages[i]).Success?
    ensures r.Success? ==> forall x :: x in r.value ==> !HasState(x, "Totals")
    ensures r.Failure? && |pages| > 0 ==>
              exists i :: 0 <= i < |pages| && FailsFirstAt(pages, parsePage, i, r.error)
  {
    if |pages| == 0 then Failure(NoPages)
    else
      var tables :- Traverse(pages, parsePage);
      Success(DropTotals(Flatten(tables)))
  }

  /** The output is each page's rows minus its "Totals" rows, page after page:
      every other row is kept, in its original relative order. */
  lemma {:induction false} DropTotalsPageByPage(tables: seq<seq<Row>>)
    ensures DropTotals(Flatten(tables)) == Flatten(seq(|tables|, i requires 0 <= i < |tables| => DropTotals(tables[i])))
  {
    var dropped := seq(|tables|, i requires 0 <= i < |tables| => DropTotals(tables[i]));
    if |tables| > 0 {
      DropTotalsPageByPage(tables[1..]);
      FilterAppend(tables[0], Flatten(tables[1..]), NotTotals);
      assert dropped[1..] == seq(|tables[1..]|, i requires 0 <= i < |tables[1..]| => DropTotals(tables[1..][i]));
    }
  }

  /** When every page parses, the document is their tables concatenated, with the
      aggregate rows removed page by page. */
  lemma ParsePdfConcatenatesPages<P>(pages: seq<P>, parsePage: P -> Result<seq<Row>, Error>, tables: seq<seq<Row>>)
    requires |pages| > 0 && |tables| == |pages|
    requires forall i :: 0 <= i < |pages| ==> parsePage(pages[i]) == Success(tables[i])
    ensures ParsePdf(pages, parsePage) ==
            Success(Flatten(seq(|tables|, i requires 0 <= i < |tables| => DropTotals(tables[i]))))
  {
    var r := Traverse(pages, parsePage);
    assert r.Success?;
    assert r.value == tables;
    DropTotalsPageByPage(tables);
  }

  /** A page whose only "Totals" row is its last loses exactly that row. */
  lemma {:induction false} DropTotalsOfPage(t: seq<Row>)
    requires |t| > 0 && HasState(t[|t| - 1], "Totals")
    requires forall i :: 0 <= i < |t| - 1 ==> !HasState(t[i], "Totals")
    ensures DropTotals(t) == t[..|t| - 1]
  {
    var front := t[..|t| - 1];
    assert t == front + [t[|t| - 1]];
    FilterAppend(front, [t[|t| - 1]], NotTotals);
    FilterKeepsAll(front, NotTotals);
    assert Filter([t[|t| - 1]], NotTotals) == [];
  }

  /** When each page's aggregate row is its last and only "Totals" row, dropping the
      aggregates leaves the pages' state rows, page after page. */
  lemma DropTotalsKeepsStateRows(tables: seq<seq<Row>>)
    requires forall i :: 0 <= i < |tables| ==>
               && |tables[i]| > 0
               && HasState(tables[i][|tables[i]| - 1], "Totals")
               && forall j :: 0 <= j < |tables[i]| - 1 ==> !HasState(tables[i][j], "Totals")
    ensures DropTotals(Flatten(tables)) ==
            Flatten(seq(|tables|, i requires 0 <= i < |tables| => tables[i][..|tables[i]| - 1]))
  {
    DropTotalsPageByPage(tables);
    forall i | 0 <= i < |tables|
      ensures DropTotals(tables[i]) == tables[i][..|tables[i]| - 1]
    {
      DropTotalsOfPage(tables[i]);
    }
    assert seq(|tables|, i requires 0 <= i < |tables| => DropTotals(tables[i]))
        == seq(|tables|, i requires 0 <= i < |tables| => tables[i][..|tables[i]| - 1]);
  }

  // The CSV-shaping step after parse_pdf.

  /** Territories whose rows pass the checks but are left out of the output. */
  const Territories: set<string> :=
    {"Guam", "District of Columbia", "Mariana Islands", "Virgin Islands", "Puerto Rico"}

  /** An output record: a row with its month key split into year and month number. */
  datatype OutRow = OutRow(row: Row, year: string, monNum: Option<string>)

  /** `month.split("-")[0]` and `[1]`: the year is the text before the first dash, the
      month number the text between the first and any second dash; the month number is
      missing when the key has no dash, and then the year is the whole key. */
  function Annotate(r: Row): (o: OutRow)
    ensures o.row == r
    ensures '-' !in o.year && o.year <= r.month
    ensures '-' !in r.month ==> o.year == r.month
    ensures o.monNum.Some? <==> '-' in r.month
    ensures o.monNum.Some? ==> '-' !in o.monNum.value && o.year + "-" + o.monNum.value <= r.month
    ensures o.monNum.Some? ==>
              var n := |o.year| + 1 + |o.monNum.value|;
              n == |r.month| || r.month[n] == '-'
  {
    var parts := Split(r.month, '-');
    JoinSplit(r.month, '-');
    JoinHead(parts, '-');
    if '-' !in r.month then SplitWithoutSeparator(r.month, '-'); OutRow(r, parts[0], None)
    else OutRow(r, parts[0], Some(parts[1]))
  }

  predicate NotTerritory(o: OutRow) {
    !(o.row.state.Some? && o.row.state.value in Territories)
  }

  /** Adds year and month number to every row, then drops the territory rows. */
  function Finalize(rows: seq<Row>): (r: seq<OutRow>)
    ensures |r| <= |rows|
    ensures forall k :: 0 <= k < |r| ==> NotTerritory(r[k]) && r[k].row in rows && r[k] == Annotate(r[k].row)
    ensures forall i :: 0 <= i < |rows| && NotTerritory(Annotate(rows[i])) ==> Annotate(rows[i]) in r
  {
    var annotated := AnnotateAll(rows);
    var r := Filter(annotated, NotTerritory);
    assert forall k :: 0 <= k < |r| ==> exists i :: 0 <= i < |rows| && r[k] == annotated[i];
    assert forall i :: 0 <= i < |rows| ==> annotated[i] == Annotate(rows[i]);
    r
  }

  /** The annotated rows, one per row. */
  function AnnotateAll(rows: seq<Row>): (r: seq<OutRow>)
    ensures |r| == |rows|
    ensures forall i :: 0 <= i < |rows| ==> r[i] == Annotate(rows[i])
  {
    seq(|rows|, i requires 0 <= i < |rows| => Annotate(rows[i]))
  }

  /** Finalizing a concatenation finalizes each part and keeps the parts in order. */
  lemma FinalizeAppend(a: seq<Row>, b: seq<Row>)
    ensures Finalize(a + b) == Finalize(a) + Finalize(b)
  {
    assert AnnotateAll(a + b) == AnnotateAll(a) + AnnotateAll(b);
    FilterAppend(AnnotateAll(a), AnnotateAll(b), NotTerritory);
  }

  /** A single row is annotated and kept, or dropped as a territory; with FinalizeAppend
      this fixes every result, so order and multiplicity are kept. */
  lemma FinalizeSingleton(x: Row)
    ensures Finalize([x]) == if NotTerritory(Annotate(x)) then [Annotate(x)] else []
  {
    assert AnnotateAll([x]) == [Annotate(x)];
    FilterSingleton(Annotate(x), NotTerritory);
  }

  /** A key made by the month parser splits into a four-character year and a
      two-character month number that rejoin, with a dash, to the key. */
  lemma SplitMonthKey(k: string)
    requires IsMonthKey(k)
    ensures Split(k, '-') == [k[..4], k[5..]]
    ensures Annotate(Row(k, None, [])).year == k[..4]
    ensures Annotate(Row(k, None, [])).monNum == Some(k[5..])
    ensures |k[..4]| == 4 && |k[5..]| == 2
    ensures k[..4] + "-" + k[5..] == k
  {
    var m :| 1 <= m <= 12 && k[5..] == MonthNumber(m);
    assert '-' !in k[..4] by {
      assert forall i :: 0 <= i < 4 ==> IsDigit(k[..4][i]);
    }
    assert '-' !in k[5..] by {
      assert forall i :: 0 <= i < 2 ==> IsDigit(k[5..][i]);
    }
    assert k == k[..4] + ['-'] + k[5..];
    SplitAtFirst(k[..4], '-', k[5..]);
    SplitWithoutSeparator(k[5..], '-');
  }

  /** Every output record splits its key cleanly, is not a territory, and comes from an input row;
      every non-territory input row is in the output. */
  lemma FinalizeRecords(rows: seq<Row>)
    requires forall i :: 0 <= i < |rows| ==> IsMonthKey(rows[i].month)
    ensures forall o :: o in Finalize(rows) ==>
              && o.row in rows
              && NotTerritory(o)
              && |o.year| == 4
              && o.monNum.Some? && |o.monNum.value| == 2
              && o.year + "-" + o.monNum.value == o.row.month
    ensures forall i :: 0 <= i < |rows| && NotTerritory(Annotate(rows[i])) ==> Annotate(rows[i]) in Finalize(rows)
  {
    var annotated := AnnotateAll(rows);
    forall o | o in Finalize(rows)
      ensures && o.row in rows
              && NotTerritory(o)
              && |o.year| == 4
              && o.monNum.Some? && |o.monNum.value| == 2
              && o.year + "-" + o.monNum.value == o.row.month
    {
      assert o in annotated;
      var i :| 0 <= i < |rows| && annotated[i] == o;
      SplitMonthKey(rows[i].month);
    }
    forall i | 0 <= i < |rows| && NotTerritory(Annotate(rows[i]))
      ensures Annotate(rows[i]) in Finalize(rows)
    {
      assert annotated[i] == Annotate(rows[i]);
    }
  }

  /** Lines 161-173 of the program: from pages to output records, before state
      abbreviations are attached. */
  function BuildDataset(pages: seq<PageInput>): (r: Result<seq<OutRow>, Error>)
    ensures |pages| == 0 ==> r == Failure(NoPages)
    ensures r.Success? <==> |pages| > 0 && forall i :: 0 <= i < |pages| ==> ParsePage(pages[i]).Success?
    ensures r.Failure? && |pages| > 0 ==>
              exists i :: 0 <= i < |pages| && FailsFirstAt(pages, ParsePage, i, r.error)
    ensures r.Success? ==>
              forall k :: 0 <= k < |r.value| ==> NotTerritory(r.value[k]) && !HasState(r.value[k].row, "Totals")
  {
    var rows :- ParsePdf(pages, ParsePage);
    Success(Finalize(rows))
  }

  /** When every page parses, the dataset is every page's rows without its "Totals" rows,
      page after page, then annotated and filtered of territories. */
  lemma BuildDatasetConcatenates(pages: seq<PageInput>, tables: seq<seq<Row>>)
    requires |pages| > 0 && |tables| == |pages|
    requires forall i :: 0 <= i < |pages| ==> ParsePage(pages[i]) == Success(tables[i])
    ensures BuildDataset(pages) ==
            Success(Finalize(Flatten(seq(|tables|, i requires 0 <= i < |tables| => DropTotals(tables[i])))))
  {
    ParsePdfConcatenatesPages(pages, ParsePage, tables);
  }

  /** Every record of a built dataset carries a well-formed key, split into its parts,
      and belongs to neither an aggregate row nor a territory. */
  lemma BuildDatasetRecords(pages: seq<PageInput>)
    ensures BuildDataset(pages).Success? ==>
              forall o :: o in BuildDataset(pages).value ==>
                && IsMonthKey(o.row.month)
                && !HasState(o.row, "Totals")
                && NotTerritory(o)
                && o.monNum.Some?
                && o.year + "-" + o.monNum.value == o.row.month
  {
    if BuildDataset(pages).Success? {
      var rows := ParsePdf(pages, ParsePage).value;
      var tables := Traverse(pages, ParsePage).value;
      forall x | x in rows
        ensures IsMonthKey(x.month)
      {
        FlattenMember(tables, x);
        var i, j :| 0 <= i < |tables| && 0 <= j < |tables[i]| && tables[i][j] == x;
        PageRowKeyed(pages[i], tables[i], j);
      }
      forall i | 0 <= i < |rows|
        ensures IsMonthKey(rows[i].month)
      {
        assert rows[i] in rows;
      }
      FinalizeRecords(rows);
    }
  }

  /** A row of a parsed page carries a month key. */
  lemma PageRowKeyed(p: PageInput, t: seq<Row>, j: nat)
    ensures ParsePage(p) == Success(t) && j < |t| ==> IsMonthKey(t[j].month)
  {
  }

  /** A row of a flattened sequence of tables comes from one of them. */
  lemma {:induction false} FlattenMember(tables: seq<seq<Row>>, x: Row)
    requires x in Flatten(tables)
    ensures exists i, j :: 0 <= i < |tables| && 0 <= j < |tables[i]| && tables[i][j] == x
  {
    if x in tables[0] {
      var j :| 0 <= j < |tables[0]| && tables[0][j] == x;
      assert tables[0][j] == x;
    } else {
      FlattenMember(tables[1..], x);
      var i, j :| 0 <= i < |tables[1..]| && 0 <= j < |tables[1..][i]| && tables[1..][i][j] == x;
      assert tables[i + 1][j] == x;
    }
  }
}

=== FILE: month_label.dfy ===
/** The month label parser: "<FullMonthName> - <YYYY>" becomes the key "YYYY-MM". */
module MonthLabel {
  import opened Results
  import opened Text
  import opened Schema

  const MonthNames: seq<string> := [
    "January", "February", "March", "April", "May", "June",
    "July", "August", "September", "October", "November", "December"
  ]

  /** Month `m` as `%m` prints it: two digits, zero-padded. */
  function MonthNumber(m: nat): (s: string)
    requires 1 <= m <= 12
    ensures |s| == 2 && AllDigits(s) && DigitsValue(s) == m
  {
    var s := [DigitChar(m / 10), DigitChar(m % 10)];
    assert s[..1] == [s[0]] && [s[0]][..0] == [];
    assert DigitsValue(s[..1]) == m / 10;
    assert DigitsValue(s) == (m / 10) * 10 + m % 10;
    s
  }

  /** Four digits that `%Y` reads as a year datetime accepts (year 0 is out of range). */
  predicate IsYearText(y: string) {
    |y| == 4 && AllDigits(y) && y != "0000"
  }

  /** The shape of every key the parser produces. */
  predicate IsMonthKey(k: string) {
    && |k| == 7
    && IsYearText(k[..4])
    && k[4] == '-'
    && exists m :: 1 <= m <= 12 && k[5..] == MonthNumber(m)
  }

  /** The header text for month `m` of year `y`. */
  function Header(m: nat, y: string): string
    requires 1 <= m <= 12
  {
    MonthNames[m - 1] + " - " + y
  }

  function LookupFrom(name: string, i: nat): (r: Option<nat>)
    requires i <= |MonthNames|
    ensures r.Some? ==> i <= r.value < |MonthNames| && MonthNames[r.value] == name
    ensures r.None? ==> forall j :: i <= j < |MonthNames| ==> MonthNames[j] != name
    decreases |MonthNames| - i
  {
    if i == |MonthNames| then None
    else if MonthNames[i] == name then Some(i)
    else LookupFrom(name, i + 1)
  }

  /** Zero-based index of a full English month name. */
  function LookupMonth(name: string): (r: Option<nat>)
    ensures r.Some? ==> r.value < 12 && MonthNames[r.value] == name
    ensures r.None? ==> name !in MonthNames
  {
    LookupFrom(name, 0)
  }

  /** Parses a page header. The year of the key is the header's four digits
      as written, which is `%Y` of the parsed year zero-padded to four places. */
  function ParseMonth(text: string): (r: Result<string, Error>)
    ensures r.Failure? ==> r.error == BadMonth(text)
    ensures r.Success? ==> IsMonthKey(r.value)
  {
    if |text| < 7 then Failure(BadMonth(text))
    else
      var n := |text| - 7;
      var name, sep, year := text[..n], text[n..n + 3], text[n + 3..];
      match LookupMonth(name)
      case None => Failure(BadMonth(text))
      case Some(i) =>
        if sep == " - " && IsYearText(year) then
          var key := year + "-" + MonthNumber(i + 1);
          assert key[..4] == year && key[5..] == MonthNumber(i + 1);
          Success(key)
        else Failure(BadMonth(text))
  }

  lemma MonthNamesDistinct()
    ensures forall i, j :: 0 <= i < j < |MonthNames| ==> MonthNames[i] != MonthNames[j]
  {
  }

  /** Every well-formed header parses, to its year, a dash and its zero-padded month. */
  lemma ParseMonthAcceptsHeaders(m: nat, y: string)
    requires 1 <= m <= 12 && IsYearText(y)
    ensures ParseMonth(Header(m, y)) == Success(y + "-" + MonthNumber(m))
  {
    var name := MonthNames[m - 1];
    var text := Header(m, y);
    var n := |text| - 7;
    assert n == |name|;
    assert text[..n] == name;
    assert text[n..n + 3] == " - ";
    assert text[n + 3..] == y;
    MonthNamesDistinct();
    assert LookupMonth(name) == Some(m - 1);
  }

  /** Nothing but a well-formed header parses, and the key is built from its parts. */
  lemma ParseMonthOnlyHeaders(text: string)
    requires ParseMonth(text).Success?
    ensures exists m, y :: 1 <= m <= 12 && IsYearText(y) && text == Header(m, y)
                           && ParseMonth(text).value == y + "-" + MonthNumber(m)
  {
    var n := |text| - 7;
    var name, sep, year := text[..n], text[n..n + 3], text[n + 3..];
    var i := LookupMonth(name).value;
    assert sep == " - " && IsYearText(year);
    assert ParseMonth(text).value == year + "-" + MonthNumber(i + 1);
    assert text == name + sep + year;
    assert text == Header(i + 1, year);
  }

  /** The parser accepts exactly the well-formed headers. */
  lemma ParseMonthSucceedsIffHeader(text: string)
    ensures ParseMonth(text).Success? <==>
            exists m, y :: 1 <= m <= 12 && IsYearText(y) && text == Header(m, y)
  {
    if ParseMonth(text).Success? {
      ParseMonthOnlyHeaders(text);
    }
    if exists m, y :: 1 <= m <= 12 && IsYearText(y) && text == Header(m, y) {
      var m, y :| 1 <= m <= 12 && IsYearText(y) && text == Header(m, y);
      ParseMonthAcceptsHeaders(m, y);
    }
  }

  /** A worked example. */
  lemma MarchExample()
    ensures ParseMonth("March - 2021") == Success("2021-03")
  {
    assert Header(3, "2021") == "March - 2021";
    assert DigitChar(0) == '0' && DigitChar(3) == '3';
    assert MonthNumber(3) == "03";
    assert "2021" + "-" + "03" == "2021-03";
    ParseMonthAcceptsHeaders(3, "2021");
  }
}

=== FILE: page.dfy ===
/** Page row assembly: the extracted grid of one page becomes a typed, checked table.
    The geometric extraction itself (cropping bands, locating the grid) is not modelled;
    the header text and the grid rows arrive as inputs. */
module Page {
  import opened Results
  import opened Schema
  import opened MonthLabel
  import opened Coercion
  import opened Validate
  import opened Text

  /** Cells in one extracted grid row: the state label and the 25 numeric fields. */
  const RowCells: nat := 26

  /** What the extraction layer yields for one page: the header band's text and the
      grid's rows of cells, each cell either null or a string. */
  datatype PageInput = PageInput(monthText: string, grid: seq<seq<Option<string>>>)

  /** Length of the longest grid row, which sets the width of the frame built from them. */
  function Width(grid: seq<seq<Option<string>>>): (w: nat)
    ensures forall i :: 0 <= i < |grid| ==> |grid[i]| <= w
    ensures |grid| > 0 ==> exists i :: 0 <= i < |grid| && |grid[i]| == w
  {
    if |grid| == 0 then 0
    else
      var rest := Width(grid[1..]);
      assert forall i :: 1 <= i < |grid| ==> grid[i] == grid[1..][i - 1];
      if |grid[0]| >= rest then |grid[0]| else rest
  }

  /** A grid row filled out with null cells to `n` cells, as a frame built from ragged rows is. */
  function Pad(cells: seq<Option<string>>, n: nat): (r: seq<Option<string>>)
    requires |cells| <= n
    ensures |r| == n
    ensures forall k :: 0 <= k < |cells| ==> r[k] == cells[k]
    ensures forall k :: |cells| <= k < n ==> r[k] == None
  {
    cells + seq(n - |cells|, _ => None)
  }

  /** The one known extraction artefact: "Illinois" losing its first letter. */
  function FixState(s: Option<string>): (r: Option<string>)
    ensures r != s <==> s == Some("llinois")
    ensures s == Some("llinois") ==> r == Some("Illinois")
  {
    if s == Some("llinois") then Some("Illinois") else s
  }

  /** Coerces a run of cells, failing if any of them is not an integer literal. */
  function CoerceCells(cells: seq<Option<string>>): (r: Result<seq<Option<int>>, Error>)
    ensures r.Success? <==> forall k :: 0 <= k < |cells| ==> ParseValue(cells[k]).Success?
    ensures r.Success? ==> |r.value| == |cells|
    ensures r.Success? ==> forall k :: 0 <= k < |cells| ==> ParseValue(cells[k]) == Success(r.value[k])
    ensures r.Failure? ==> r.error == BadInt
  {
    if |cells| == 0 then Success([])
    else
      var v :- ParseValue(cells[0]);
      var rest :- CoerceCells(cells[1..]);
      Success([v] + rest)
  }

  /** One grid row bound to the schema: the month in front, the state label as
      extracted apart from the Illinois fix, every later cell coerced. */
  function BindRow(month: string, cells: seq<Option<string>>): (r: Result<Row, Error>)
    requires |cells| == RowCells
    ensures r.Success? ==>
              && WellFormed(r.value)
              && r.value.month == month
              && r.value.state == FixState(cells[0])
              && forall k :: 0 <= k < NumFields ==> ParseValue(cells[k + 1]) == Success(r.value.fields[k])
    ensures r.Failure? <==> exists k :: 1 <= k < RowCells && ParseValue(cells[k]).Failure?
    ensures r.Failure? ==> r.error == BadInt
  {
    var fields :- CoerceCells(cells[1..]);
    Success(Row(month, FixState(cells[0]), fields))
  }

  /** Binds one grid row, null-padded to the schema's width; a longer row cannot be bound. */
  function BindPadded(month: string, cells: seq<Option<string>>): Result<Row, Error> {
    if |cells| <= RowCells then BindRow(month, Pad(cells, RowCells)) else Failure(ShapeMismatch)
  }

  /** Binds every grid row, in order. */
  function BindRows(month: string, grid: seq<seq<Option<string>>>): (r: Result<seq<Row>, Error>)
    requires forall i :: 0 <= i < |grid| ==> |grid[i]| <= RowCells
    ensures r.Success? ==> |r.value| == |grid| && WellFormedTable(r.value)
    ensures r.Success? ==> forall i :: 0 <= i < |grid| ==> BindRow(month, Pad(grid[i], RowCells)) == Success(r.value[i])
    ensures r.Failure? ==> r.error == BadInt
    ensures r.Failure? ==> exists i :: 0 <= i < |grid| && BindRow(month, Pad(grid[i], RowCells)).Failure?
  {
    var r := Traverse(grid, cells => BindPadded(month, cells));
    assert r.Success? ==> forall i :: 0 <= i < |grid| ==> BindPadded(month, grid[i]) == Success(r.value[i]);
    r
  }

  /** The part of parse_pdf_page after the header is read: bind the grid to the
      schema, coerce, fix the state label, then check; a failed check is reported
      as an invalid page for the month. */
  function BuildTable(month: string, grid: seq<seq<Option<string>>>): (r: Result<seq<Row>, Error>)
    ensures |grid| == 0 ==> r == Failure(ShapeMismatch)
    ensures r.Success? ==>
              && |r.value| == |grid|
              && WellFormedTable(r.value)
              && ChkData(r.value).Pass?
              && (forall i :: 0 <= i < |grid| ==> r.value[i].month == month)
              && forall i :: 0 <= i < |grid| ==>
                   |grid[i]| <= RowCells && BindRow(month, Pad(grid[i], RowCells)) == Success(r.value[i])
    ensures r.Failure? ==> r.error.ShapeMismatch? || r.error.BadInt? || r.error == InvalidPage(month)
    ensures r.Success? <==>
              && |grid| > 0 && Width(grid) == RowCells
              && BindRows(month, grid).Success?
              && ChkData(BindRows(month, grid).value).Pass?
    ensures |grid| > 0 && Width(grid) != RowCells ==> r == Failure(ShapeMismatch)
    ensures |grid| > 0 && Width(grid) == RowCells && BindRows(month, grid).Failure? ==> r == Failure(BadInt)
    ensures && |grid| > 0 && Width(grid) == RowCells
            && BindRows(month, grid).Success?
            && ChkData(BindRows(month, grid).value).Fail?
            ==> r == Failure(InvalidPage(month))
  {
    if |grid| == 0 || Width(grid) != RowCells then Failure(ShapeMismatch)
    else
      var rows :- BindRows(month, grid);
      assert WellFormedTable(rows);
      match ChkData(rows)
      case Pass => Success(rows)
      case Fail(_) => Failure(InvalidPage(month))
  }

  /** parse_pdf_page without the geometry: the header's month, then the checked table.
      A page is accepted exactly when its header is a month heading, its grid is 26 cells
      wide, every numeric cell coerces and the bound table passes the check; every row of
      an accepted page carries the heading's month as a `YYYY-MM` key. */
  function ParsePage(p: PageInput): (r: Result<seq<Row>, Error>)
    ensures ParseMonth(p.monthText).Failure? ==> r == Failure(BadMonth(p.monthText))
    ensures ParseMonth(p.monthText).Success? ==> r == BuildTable(ParseMonth(p.monthText).value, p.grid)
    ensures r.Success? <==>
              && ParseMonth(p.monthText).Success?
              && |p.grid| > 0 && Width(p.grid) == RowCells
              && BindRows(ParseMonth(p.monthText).value, p.grid).Success?
              && ChkData(BindRows(ParseMonth(p.monthText).value, p.grid).value).Pass?
    ensures r.Success? ==>
              && |r.value| == |p.grid|
              && WellFormedTable(r.value)
              && ChkData(r.value).Pass?
              && (forall i :: 0 <= i < |r.value| ==> IsMonthKey(r.value[i].month))
              && exists m, y ::
                   && 1 <= m <= 12 && IsYearText(y) && p.monthText == Header(m, y)
                   && forall i :: 0 <= i < |r.value| ==> r.value[i].month == y + "-" + MonthNumber(m)
  {
    var month :- ParseMonth(p.monthText);
    var r := BuildTable(month, p.grid);
    if r.Success? then HeadingKeysRows(p.monthText, r.value); r else r
  }

  /** Rows all carrying the key parsed from a heading carry that heading's month and year. */
  lemma HeadingKeysRows(text: string, rows: seq<Row>)
    requires ParseMonth(text).Success?
    requires forall i :: 0 <= i < |rows| ==> rows[i].month == ParseMonth(text).value
    ensures forall i :: 0 <= i < |rows| ==> IsMonthKey(rows[i].month)
    ensures exists m, y ::
              && 1 <= m <= 12 && IsYearText(y) && text == Header(m, y)
              && forall i :: 0 <= i < |rows| ==> rows[i].month == y + "-" + MonthNumber(m)
  {
    ParseMonthOnlyHeaders(text);
  }

  /** A grid is accepted as a page exactly when it is 26 cells wide, every numeric cell
      coerces, and in the bound table every column's rows above the aggregate sum to the
      aggregate cell and every row's categories sum to its totals. */
  lemma PageAcceptedIffBalanced(month: string, grid: seq<seq<Option<string>>>)
    ensures BuildTable(month, grid).Success? <==>
              && |grid| > 0 && Width(grid) == RowCells
              && BindRows(month, grid).Success?
              && (forall c :: 0 <= c < NumFields ==> ColumnAddsUp(BindRows(month, grid).value, c))
              && (forall i :: 0 <= i < |grid| ==> RowAddsUp(BindRows(month, grid).value[i]))
  {
    if |grid| > 0 && Width(grid) == RowCells && BindRows(month, grid).Success? {
      ChkDataPassIffBalanced(BindRows(month, grid).value);
    }
  }

  /** A run of zero cells sums to zero. */
  lemma {:induction false} ZerosSumToZero(xs: seq<Option<int>>)
    requires forall k :: 0 <= k < |xs| ==> xs[k] == Some(0)
    ensures SumPresent(xs) == 0
  {
    if |xs| > 0 {
      ZerosSumToZero(xs[1..]);
    }
  }

  /** The aggregate-only grid row with every count "0". */
  function ZeroGridRow(): (cells: seq<Option<string>>)
    ensures |cells| == RowCells
  {
    [Some("Totals")] + seq(NumFields, _ => Some("0"))
  }

  lemma ZeroCellReads()
    ensures ParseValue(Some("0")) == Success(Some(0))
  {
    assert StripCommas("0") == "0" by {
      assert "0"[1..] == "";
    }
    assert DigitsValue("0") == 0 by {
      assert "0"[..0] == "";
    }
  }

  lemma ZeroRowBinds(month: string)
    ensures BindRow(month, ZeroGridRow()) == Success(Row(month, Some("Totals"), ZeroFields()))
  {
    var cells := ZeroGridRow();
    ZeroCellReads();
    assert forall k :: 0 <= k < NumFields ==> cells[1..][k] == Some("0");
    var fields := CoerceCells(cells[1..]);
    assert fields.Success?;
    assert fields.value == ZeroFields();
  }

  lemma ZeroTableChecks(month: string)
    ensures ChkData([Row(month, Some("Totals"), ZeroFields())]).Pass?
  {
    var row := Row(month, Some("Totals"), ZeroFields());
    assert Last([row]) == row;
    forall c | 0 <= c < NumFields
      ensures VerticalOk([row], c)
    {
      ZerosSumToZero(Column([row], c));
    }
    ZerosSumToZero(row.fields);
    assert HorizontalOk(row);
  }

  /** A worked example: a page holding only its aggregate row, every count "0", is accepted
      unchanged apart from coercion. */
  lemma ZeroPageAccepted(month: string)
    ensures BuildTable(month, [ZeroGridRow()]) == Success([Row(month, Some("Totals"), ZeroFields())])
  {
    var cells := ZeroGridRow();
    var grid := [cells];
    var row := Row(month, Some("Totals"), ZeroFields());
    assert Width(grid) == RowCells by {
      assert grid[1..] == [];
    }
    assert Pad(grid[0], RowCells) == cells;
    ZeroRowBinds(month);
    var rows := BindRows(month, grid);
    assert rows.Success?;
    assert rows.value == [rows.value[0]] && rows.value[0] == row;
    ZeroTableChecks(month);
  }

  /** A table that binds but fails its check rejects the whole page, tagged with the month. */
  lemma FailedCheckRejectsPage(p: PageInput, month: string, rows: seq<Row>)
    ensures && ParseMonth(p.monthText) == Success(month)
            && |p.grid| > 0 && Width(p.grid) == RowCells
            && BindRows(month, p.grid) == Success(rows)
            && WellFormedTable(rows) && ChkData(rows).Fail?
            ==> ParsePage(p) == Failure(InvalidPage(month))
  {
    if && ParseMonth(p.monthText) == Success(month)
       && |p.grid| > 0 && Width(p.grid) == RowCells
       && BindRows(month, p.grid) == Success(rows)
       && WellFormedTable(rows) && ChkData(rows).Fail?
    {
      var r := BuildTable(month, p.grid);
      assert r == Failure(InvalidPage(month));
      assert ParsePage(p) == r;
    }
  }

  /** A grid wider than the schema is refused before any cell is coerced. */
  lemma WideGridRejected(p: PageInput)
    requires ParseMonth(p.monthText).Success?
    requires exists i :: 0 <= i < |p.grid| && |p.grid[i]| > RowCells
    ensures ParsePage(p) == Failure(ShapeMismatch)
  {
  }
}

=== FILE: results.dfy ===
/** Failure-carrying wrappers used throughout the model.
    - Option<T>: a value that may be absent (a null cell, a missing state label)
    - Result<R, E>: a computed value or the error that stopped the computation
    - Outcome<E>: a check that either passes or fails with an error
    and `Traverse`, which applies a fallible step to each element in order. */
module Results {

  datatype Option<+T> = None | Some(value: T)

  datatype Result<+R, +E> = Success(value: R) | Failure(error: E) {

    predicate IsFailure() {
      Failure?
    }

    function PropagateFailure<U>(): Result<U, E>
      requires Failure?
    {
      Failure(error)
    }

    function Extract(): R
      requires Success?
    {
      value
    }
  }

  datatype Outcome<+E> = Pass | Fail(error: E)

  /** Applies `f` to each element in order, stopping at the first failure. */
  function Traverse<A, B(==), E(==)>(xs: seq<A>, f: A -> Result<B, E>): (r: Result<seq<B>, E>)
    ensures r.Success? ==> |r.value| == |xs|
    ensures r.Success? ==> forall i :: 0 <= i < |xs| ==> f(xs[i]) == Success(r.value[i])
    ensures r.Failure? ==> exists i :: 0 <= i < |xs| && FailsFirstAt(xs, f, i, r.error)
  {
    if |xs| == 0 then Success([])
    else
      match f(xs[0])
      case Failure(e) =>
        assert FailsFirstAt(xs, f, 0, e);
        Failure(e)
      case Success(first) =>
        match Traverse(xs[1..], f)
        case Failure(e) =>
          var i :| 0 <= i < |xs[1..]| && FailsFirstAt(xs[1..], f, i, e);
          assert FailsFirstAt(xs, f, i + 1, e);
          Failure(e)
        case Success(rest) =>
          Success([first] + rest)
  }

  /** Element `i` is the first on which `f` fails, and it fails with `e`. */
  predicate FailsFirstAt<A, B(==), E(==)>(xs: seq<A>, f: A -> Result<B, E>, i: nat, e: E) {
    && i < |xs|
    && f(xs[i]) == Failure(e)
    && forall j :: 0 <= j < i ==> f(xs[j]).Success?
  }
}

=== FILE: schema.dfy ===
/** The fixed table schema of one report page and the errors the pipeline can raise. */
module Schema {
  import opened Results

  /** The 27 column names, in report order: the injected month, the state label,
      24 check categories and the per-row totals. */
  const Columns: seq<string> := [
    "month",
    "state",
    "permit",
    "permit_recheck",
    "handgun",
    "long_gun",
    "other",
    "multiple",
    "admin",
    "prepawn_handgun",
    "prepawn_long_gun",
    "prepawn_other",
    "redemption_handgun",
    "redemption_long_gun",
    "redemption_other",
    "returned_handgun",
    "returned_long_gun",
    "returned_other",
    "rentals_handgun",
    "rentals_long_gun",
    "private_sale_handgun",
    "private_sale_long_gun",
    "private_sale_other",
    "return_to_seller_handgun",
    "return_to_seller_long_gun",
    "return_to_seller_other",
    "totals"
  ]

  /** Numeric fields of a row: every column after month and state. */
  const NumFields: nat := 25

  /** Position of "totals" among the numeric fields; the fields before it are the categories. */
  const TotalsField: nat := 24

  /** Name of numeric field `c`. */
  function FieldName(c: nat): string
    requires c < NumFields
  {
    Columns[c + 2]
  }

  /** The schema's shape: month and state first, then the numeric fields ending in totals. */
  lemma ColumnsShape()
    ensures |Columns| == 2 + NumFields
    ensures Columns[0] == "month" && Columns[1] == "state"
    ensures FieldName(0) == "permit" && FieldName(TotalsField) == "totals"
    ensures TotalsField == NumFields - 1
  {
  }

  /** One table row. `state` is None when the extracted cell was null;
      `fields[c]` is None for an absent value, which is not the same as 0. */
  datatype Row = Row(month: string, state: Option<string>, fields: seq<Option<int>>)

  predicate WellFormed(r: Row) {
    |r.fields| == NumFields
  }

  predicate WellFormedTable(rows: seq<Row>) {
    forall i :: 0 <= i < |rows| ==> WellFormed(rows[i])
  }

  /** A row's own totals cell. */
  function Totals(r: Row): Option<int>
    requires WellFormed(r)
  {
    r.fields[TotalsField]
  }

  predicate HasState(r: Row, name: string) {
    r.state == Some(name)
  }

  datatype Error =
    | NoData                                  // chk_data on a zero-row table
    | VerticalMismatch(column: string)        // a column's sum is not twice its aggregate cell
    | HorizontalMismatch(state: Option<string>) // a row's sum is not twice its totals
    | BadMonth(text: string)                  // the header is not "<Month> - <YYYY>"
    | BadInt                                  // a non-empty cell is not an integer literal
    | ShapeMismatch                           // the extracted grid is not 26 cells wide
    | InvalidPage(month: string)              // a page failed its reconciliation check
    | NoPages                                 // the document has no pages to concatenate

  /** The message text the program itself writes for an error. Errors raised inside the
      date parser, `int` or the frame library carry those libraries' own texts, which are
      not modelled: they have none here. */
  function Message(e: Error): (m: Option<string>)
    ensures m.Some? <==> e.NoData? || e.VerticalMismatch? || e.HorizontalMismatch? || e.InvalidPage?
  {
    match e
    case NoData => Some("No data found.")
    case VerticalMismatch(c) => Some("Vertical totals don't match on " + c + ".")
    case HorizontalMismatch(s) =>
      Some("Horizontal totals don't match on " + (if s.Some? then s.value else "None") + ".")
    case InvalidPage(m) => Some("Invalid data for " + m)
    case _ => None
  }

  /** A page that fails its check is reported by its month. */
  lemma InvalidPageMessage(month: string)
    ensures Message(InvalidPage(month)) == Some("Invalid data for " + month)
  {
  }
}

=== FILE: text.dfy ===
/** Character-level helpers: decimal digits and splitting/joining on a separator. */
module Text {

  predicate IsDigit(ch: char) {
    '0' <= ch <= '9'
  }

  predicate AllDigits(s: string) {
    forall i :: 0 <= i < |s| ==> IsDigit(s[i])
  }

  function DigitValue(ch: char): (d: nat)
    requires IsDigit(ch)
    ensures d < 10
  {
    ch as int - '0' as int
  }

  function DigitChar(d: nat): (ch: char)
    requires d < 10
    ensures IsDigit(ch) && DigitValue(ch) == d
  {
    ('0' as int + d) as char
  }

  function Pow10(n: nat): (p: nat)
    ensures p > 0
  {
    if n == 0 then 1 else 10 * Pow10(n - 1)
  }

  /** The value of a decimal digit string, most significant digit first. */
  function DigitsValue(s: string): nat
    requires AllDigits(s)
  {
    if |s| == 0 then 0 else DigitsValue(s[..|s| - 1]) * 10 + DigitValue(s[|s| - 1])
  }

  /** Reading `a + b` is reading `a`, shifting by |b| places, and adding `b`. */
  lemma {:induction false} DigitsValueAppend(a: string, b: string)
    requires AllDigits(a) && AllDigits(b)
    ensures AllDigits(a + b)
    ensures DigitsValue(a + b) == DigitsValue(a) * Pow10(|b|) + DigitsValue(b)
    decreases |b|
  {
    if |b| == 0 {
      assert a + b == a;
    } else {
      var b' := b[..|b| - 1];
      var d := DigitValue(b[|b| - 1]);
      DigitsValueAppend(a, b');
      assert (a + b)[..|a + b| - 1] == a + b';
      var x, y, p := DigitsValue(a), DigitsValue(b'), Pow10(|b'|);
      assert DigitsValue(a + b) == (x * p + y) * 10 + d;
      assert DigitsValue(b) == y * 10 + d;
      ShiftDigit(x, p, y, d);
    }
  }

  lemma ShiftDigit(x: int, p: int, y: int, d: int)
    ensures (x * p + y) * 10 + d == x * (10 * p) + (y * 10 + d)
  {
  }

  /** Python's `str.split(sep)` for a one-character separator: the pieces between
      separators, always at least one (possibly empty) piece. */
  function Split(s: string, sep: char): (parts: seq<string>)
    ensures |parts| >= 1
    ensures forall k :: 0 <= k < |parts| ==> sep !in parts[k]
    ensures |parts| == 1 <==> sep !in s
  {
    if |s| == 0 then [""]
    else
      var rest := Split(s[1..], sep);
      if s[0] == sep then [""] + rest else [[s[0]] + rest[0]] + rest[1..]
  }

  /** `sep.join(parts)`. */
  function Join(parts: seq<string>, sep: char): string
    requires |parts| >= 1
  {
    if |parts| == 1 then parts[0] else parts[0] + [sep] + Join(parts[1..], sep)
  }

  /** Splitting loses nothing: joining the pieces back gives the original text. */
  lemma {:induction false} JoinSplit(s: string, sep: char)
    ensures Join(Split(s, sep), sep) == s
  {
    if |s| > 0 {
      var rest := Split(s[1..], sep);
      JoinSplit(s[1..], sep);
      if s[0] == sep {
        assert Split(s, sep)[1..] == rest;
        assert s == [sep] + s[1..];
      } else {
        var parts := Split(s, sep);
        assert parts[0] == [s[0]] + rest[0];
        if |rest| == 1 {
          assert s == [s[0]] + rest[0];
        } else {
          assert parts[1..] == rest[1..];
          assert Join(rest, sep) == rest[0] + [sep] + Join(rest[1..], sep);
          assert s == [s[0]] + s[1..];
        }
      }
    }
  }

  /** A join begins with its first piece, and then, when there is more than one,
      the separator and the second piece. */
  lemma JoinHead(parts: seq<string>, sep: char)
    requires |parts| >= 1
    ensures parts[0] <= Join(parts, sep)
    ensures |parts| > 1 ==> parts[0] + [sep] + parts[1] <= Join(parts, sep)
  {
    if |parts| > 1 {
      var tail := Join(parts[1..], sep);
      assert parts[1..][0] == parts[1];
      assert parts[1] <= tail;
      assert Join(parts, sep) == parts[0] + [sep] + tail;
      assert (parts[0] + [sep] + tail)[..|parts[0]| + 1 + |parts[1]|] == parts[0] + [sep] + parts[1];
    }
  }

  /** A text holding one separator, with none before it, splits at that separator. */
  lemma {:induction false} SplitAtFirst(a: string, sep: char, b: string)
    requires sep !in a
    ensures Split(a + [sep] + b, sep) == [a] + Split(b, sep)
  {
    if |a| == 0 {
      assert a + [sep] + b == [sep] + b;
      assert ([sep] + b)[1..] == b;
    } else {
      SplitAtFirst(a[1..], sep, b);
      assert (a + [sep] + b)[1..] == a[1..] + [sep] + b;
      assert [a[0]] + a[1..] == a;
    }
  }

  /** A text without the separator is a single piece. */
  lemma {:induction false} SplitWithoutSeparator(s: string, sep: char)
    requires sep !in s
    ensures Split(s, sep) == [s]
  {
    if |s| > 0 {
      SplitWithoutSeparator(s[1..], sep);
      assert [s[0]] + s[1..] == s;
    }
  }
}

=== FILE: validate.dfy ===
/** The reconciliation check of one page table: the report counts every value twice,
    once in its own cell and once in an aggregate, so each column sums to twice its
    aggregate-row cell and each row sums to twice its totals cell. */
module Validate {
  import opened Results
  import opened Schema

  /** An absent cell counts as 0. */
  function OrZero(x: Option<int>): int {
    if x.Some? then x.value else 0
  }

  /** Sum of the present values; absent values are skipped. */
  function SumPresent(xs: seq<Option<int>>): int {
    if |xs| == 0 then 0 else OrZero(xs[0]) + SumPresent(xs[1..])
  }

  lemma {:induction false} SumPresentAppend(a: seq<Option<int>>, b: seq<Option<int>>)
    ensures SumPresent(a + b) == SumPresent(a) + SumPresent(b)
  {
    if |a| == 0 {
      assert a + b == b;
    } else {
      assert (a + b)[1..] == a[1..] + b;
      SumPresentAppend(a[1..], b);
    }
  }

  /** Numeric field `c` of every row, top to bottom. */
  function Column(rows: seq<Row>, c: nat): (col: seq<Option<int>>)
    requires WellFormedTable(rows) && c < NumFields
    ensures |col| == |rows|
    ensures forall i :: 0 <= i < |rows| ==> col[i] == rows[i].fields[c]
  {
    seq(|rows|, i requires 0 <= i < |rows| => rows[i].fields[c])
  }

  function Last(rows: seq<Row>): Row
    requires |rows| > 0
  {
    rows[|rows| - 1]
  }

  /** The rows above the aggregate row. */
  function Front(rows: seq<Row>): seq<Row>
    requires |rows| > 0
  {
    rows[..|rows| - 1]
  }

  /** The vertical check of field `c`: the aggregate cell is present and the
      column, aggregate included, sums to twice it. */
  predicate VerticalOk(rows: seq<Row>, c: nat)
    requires |rows| > 0 && WellFormedTable(rows) && c < NumFields
  {
    var agg := Last(rows).fields[c];
    agg.Some? && SumPresent(Column(rows, c)) == 2 * agg.value
  }

  /** The horizontal check of one row: its numeric fields, totals included and
      absent values as 0, sum to twice its totals (an absent totals as 0). */
  predicate HorizontalOk(r: Row)
    requires WellFormed(r)
  {
    SumPresent(r.fields) == 2 * OrZero(Totals(r))
  }

  predicate AllVerticalOk(rows: seq<Row>)
    requires |rows| > 0 && WellFormedTable(rows)
  {
    forall c :: 0 <= c < NumFields ==> VerticalOk(rows, c)
  }

  predicate AllHorizontalOk(rows: seq<Row>)
    requires WellFormedTable(rows)
  {
    forall i :: 0 <= i < |rows| ==> HorizontalOk(rows[i])
  }

  /** The vertical checks from field `c` on, in schema order; names the first failing column. */
  function VerticalFrom(rows: seq<Row>, c: nat): (r: Outcome<Error>)
    requires |rows| > 0 && WellFormedTable(rows) && c <= NumFields
    ensures r.Pass? <==> forall k :: c <= k < NumFields ==> VerticalOk(rows, k)
    ensures r.Fail? ==>
              exists k ::
                && c <= k < NumFields
                && !VerticalOk(rows, k)
                && (forall j :: c <= j < k ==> VerticalOk(rows, j))
                && r.error == VerticalMismatch(FieldName(k))
    decreases NumFields - c
  {
    if c == NumFields then Pass
    else if !VerticalOk(rows, c) then Fail(VerticalMismatch(FieldName(c)))
    else VerticalFrom(rows, c + 1)
  }

  /** The horizontal checks from row `i` on, top to bottom; names the first failing row's state. */
  function HorizontalFrom(rows: seq<Row>, i: nat): (r: Outcome<Error>)
    requires WellFormedTable(rows) && i <= |rows|
    ensures r.Pass? <==> forall k :: i <= k < |rows| ==> HorizontalOk(rows[k])
    ensures r.Fail? ==>
              exists k ::
                && i <= k < |rows|
                && !HorizontalOk(rows[k])
                && (forall j :: i <= j < k ==> HorizontalOk(rows[j]))
                && r.error == HorizontalMismatch(rows[k].state)
    decreases |rows| - i
  {
    if i == |rows| then Pass
    else if !HorizontalOk(rows[i]) then Fail(HorizontalMismatch(rows[i].state))
    else HorizontalFrom(rows, i + 1)
  }

  /** chk_data: refuses an empty table, then runs every vertical check, then every
      horizontal check, failing on the first mismatch. */
  function ChkData(rows: seq<Row>): (r: Outcome<Error>)
    requires WellFormedTable(rows)
    ensures |rows| == 0 ==> r == Fail(NoData)
    ensures r == Fail(NoData) ==> |rows| == 0
    ensures |rows| > 0 && !AllVerticalOk(rows) ==> r.Fail? && r.error.VerticalMismatch?
    ensures r.Pass? <==> |rows| > 0 && AllVerticalOk(rows) && AllHorizontalOk(rows)
    ensures r.Fail? ==> r.error.NoData? || r.error.VerticalMismatch? || r.error.HorizontalMismatch?
    ensures r.Fail? && r.error.HorizontalMismatch? ==> |rows| > 0 && AllVerticalOk(rows)
    ensures r.Fail? && r.error.VerticalMismatch? ==>
              exists c ::
                && 0 <= c < NumFields
                && !VerticalOk(rows, c)
                && (forall j :: 0 <= j < c ==> VerticalOk(rows, j))
                && r.error.column == FieldName(c)
    ensures r.Fail? && r.error.HorizontalMismatch? ==>
              exists i ::
                && 0 <= i < |rows|
                && !HorizontalOk(rows[i])
                && (forall j :: 0 <= j < i ==> HorizontalOk(rows[j]))
                && r.error.state == rows[i].state
  {
    if |rows| == 0 then Fail(NoData)
    else
      match VerticalFrom(rows, 0)
      case Fail(e) => Fail(e)
      case Pass => HorizontalFrom(rows, 0)
  }

  // The same checks stated the way the report means them.

  /** The rows above the aggregate row add up to the aggregate cell of field `c`. */
  predicate ColumnAddsUp(rows: seq<Row>, c: nat)
    requires |rows| > 0 && WellFormedTable(rows) && c < NumFields
  {
    var agg := Last(rows).fields[c];
    agg.Some? && SumPresent(Column(Front(rows), c)) == agg.value
  }

  /** The 24 category fields of a row add up to its totals. */
  predicate RowAddsUp(r: Row)
    requires WellFormed(r)
  {
    SumPresent(r.fields[..TotalsField]) == OrZero(Totals(r))
  }

  /** "Column sum is twice the aggregate" means "the other rows sum to the aggregate". */
  lemma VerticalOkIffColumnAddsUp(rows: seq<Row>, c: nat)
    requires |rows| > 0 && WellFormedTable(rows) && c < NumFields
    ensures VerticalOk(rows, c) <==> ColumnAddsUp(rows, c)
  {
    assert Column(rows, c) == Column(Front(rows), c) + [Last(rows).fields[c]];
    SumPresentAppend(Column(Front(rows), c), [Last(rows).fields[c]]);
  }

  /** "Row sum is twice the totals" means "the categories sum to the totals". */
  lemma HorizontalOkIffRowAddsUp(r: Row)
    requires WellFormed(r)
    ensures HorizontalOk(r) <==> RowAddsUp(r)
  {
    assert r.fields == r.fields[..TotalsField] + [Totals(r)];
    SumPresentAppend(r.fields[..TotalsField], [Totals(r)]);
  }

  /** An absent aggregate cell fails that column's vertical check, whatever the column holds. */
  lemma AbsentAggregateFails(rows: seq<Row>, c: nat)
    requires |rows| > 0 && WellFormedTable(rows) && c < NumFields
    requires Last(rows).fields[c].None?
    ensures !VerticalOk(rows, c)
    ensures ChkData(rows).Fail?
  {
  }

  /** A page passes chk_data exactly when it is balanced in the report's own sense. */
  lemma ChkDataPassIffBalanced(rows: seq<Row>)
    requires WellFormedTable(rows)
    ensures ChkData(rows).Pass? <==>
            && |rows| > 0
            && (forall c :: 0 <= c < NumFields ==> ColumnAddsUp(rows, c))
            && (forall i :: 0 <= i < |rows| ==> RowAddsUp(rows[i]))
  {
    if |rows| > 0 {
      forall c | 0 <= c < NumFields
        ensures VerticalOk(rows, c) <==> ColumnAddsUp(rows, c)
      {
        VerticalOkIffColumnAddsUp(rows, c);
      }
    }
    forall i | 0 <= i < |rows|
      ensures HorizontalOk(rows[i]) <==> RowAddsUp(rows[i])
    {
      HorizontalOkIffRowAddsUp(rows[i]);
    }
  }

  /** A row's worth of zero fields. */
  function ZeroFields(): (z: seq<Option<int>>)
    ensures |z| == NumFields
  {
    seq(NumFields, _ => Some(0))
  }

  /** A two-row table. A state row holding 2 in field `c` over an aggregate row holding 2
      passes that column's check, since the column sum counts the aggregate too (2 + 2 = 2 * 2).
      A state row holding 4 over an aggregate of 2 fails it (4 + 2 != 2 * 2). */
  lemma VerticalExample(c: nat)
    requires c < NumFields
    ensures var zeros := ZeroFields();
            var agg := Row("2021-03", Some("Totals"), zeros[c := Some(2)]);
            && VerticalOk([Row("2021-03", Some("Alabama"), zeros[c := Some(2)]), agg], c)
            && !VerticalOk([Row("2021-03", Some("Alabama"), zeros[c := Some(4)]), agg], c)
  {
    var zeros := ZeroFields();
    var agg := Row("2021-03", Some("Totals"), zeros[c := Some(2)]);
    var good := [Row("2021-03", Some("Alabama"), zeros[c := Some(2)]), agg];
    var bad := [Row("2021-03", Some("Alabama"), zeros[c := Some(4)]), agg];
    assert Column(good, c) == [Some(2), Some(2)];
    assert Column(bad, c) == [Some(4), Some(2)];
    assert [Some(2), Some(2)][1..] == [Some(2)] && [Some(4), Some(2)][1..] == [Some(2)];
    assert [Some(2)][1..] == [];
    assert SumPresent(Column(good, c)) == 4 && SumPresent(Column(bad, c)) == 6;
  }

  // The totals column's own vertical check is redundant: it follows from the
  // other 24 vertical checks and the horizontal checks, when the aggregate row has a
  // totals cell. The proof exchanges the order of a double sum over the category
  // block of the rows above the aggregate.

  /** Over all rows, the sum of each row's first `n` fields. */
  function RowPrefixTotal(rows: seq<Row>, n: nat): int
    requires WellFormedTable(rows) && n <= NumFields
  {
    if |rows| == 0 then 0 else SumPresent(rows[0].fields[..n]) + RowPrefixTotal(rows[1..], n)
  }

  /** Over the first `n` fields, the sum of each field's column. */
  function ColumnPrefixTotal(rows: seq<Row>, n: nat): int
    requires WellFormedTable(rows) && n <= NumFields
  {
    if n == 0 then 0 else ColumnPrefixTotal(rows, n - 1) + SumPresent(Column(rows, n - 1))
  }

  lemma {:induction false} RowPrefixTotalEmpty(rows: seq<Row>)
    requires WellFormedTable(rows)
    ensures RowPrefixTotal(rows, 0) == 0
  {
    if |rows| > 0 {
      assert rows[0].fields[..0] == [];
      RowPrefixTotalEmpty(rows[1..]);
    }
  }

  /** Widening the row prefixes by one field adds that field's column. */
  lemma {:induction false} RowPrefixTotalStep(rows: seq<Row>, n: nat)
    requires WellFormedTable(rows) && n < NumFields
    ensures RowPrefixTotal(rows, n + 1) == RowPrefixTotal(rows, n) + SumPresent(Column(rows, n))
  {
    if |rows| > 0 {
      var f := rows[0].fields;
      RowPrefixTotalStep(rows[1..], n);
      assert f[..n + 1] == f[..n] + [f[n]];
      SumPresentAppend(f[..n], [f[n]]);
      assert Column(rows, n)[1..] == Column(rows[1..], n);
    }
  }

  /** Summing a block row by row or column by column gives the same total. */
  lemma {:induction false} SumExchange(rows: seq<Row>, n: nat)
    requires WellFormedTable(rows) && n <= NumFields
    ensures RowPrefixTotal(rows, n) == ColumnPrefixTotal(rows, n)
  {
    if n == 0 {
      RowPrefixTotalEmpty(rows);
    } else {
      SumExchange(rows, n - 1);
      RowPrefixTotalStep(rows, n - 1);
    }
  }

  /** When every row adds up, the totals column adds the rows' category blocks. */
  lemma {:induction false} TotalsColumnSumsCategories(rows: seq<Row>)
    requires WellFormedTable(rows)
    requires forall i :: 0 <= i < |rows| ==> RowAddsUp(rows[i])
    ensures SumPresent(Column(rows, TotalsField)) == RowPrefixTotal(rows, TotalsField)
  {
    if |rows| > 0 {
      TotalsColumnSumsCategories(rows[1..]);
      assert Column(rows, TotalsField)[1..] == Column(rows[1..], TotalsField);
      assert RowAddsUp(rows[0]);
    }
  }

  /** When each of the first `n` columns sums to a cell of `agg`, the columns
      together sum to `agg`'s first `n` fields. */
  lemma {:induction false} ColumnPrefixMatchesAggregate(rows: seq<Row>, agg: Row, n: nat)
    requires WellFormedTable(rows) && WellFormed(agg) && n <= NumFields
    requires forall c :: 0 <= c < n ==> SumPresent(Column(rows, c)) == OrZero(agg.fields[c])
    ensures ColumnPrefixTotal(rows, n) == SumPresent(agg.fields[..n])
  {
    if n == 0 {
      assert agg.fields[..0] == [];
    } else {
      ColumnPrefixMatchesAggregate(rows, agg, n - 1);
      assert agg.fields[..n] == agg.fields[..n - 1] + [agg.fields[n - 1]];
      SumPresentAppend(agg.fields[..n - 1], [agg.fields[n - 1]]);
    }
  }

  /** The vertical check of "totals" passes whenever the 24 category columns and
      every row pass theirs and the aggregate row has a totals cell. */
  lemma TotalsVerticalFollows(rows: seq<Row>)
    requires |rows| > 0 && WellFormedTable(rows)
    requires forall c :: 0 <= c < TotalsField ==> VerticalOk(rows, c)
    requires AllHorizontalOk(rows)
    requires Totals(Last(rows)).Some?
    ensures VerticalOk(rows, TotalsField)
  {
    var front, agg := Front(rows), Last(rows);
    assert WellFormedTable(front);
    forall c | 0 <= c < TotalsField
      ensures SumPresent(Column(front, c)) == OrZero(agg.fields[c])
    {
      VerticalOkIffColumnAddsUp(rows, c);
    }
    forall i | 0 <= i < |rows|
      ensures RowAddsUp(rows[i])
    {
      HorizontalOkIffRowAddsUp(rows[i]);
    }
    assert forall i :: 0 <= i < |front| ==> front[i] == rows[i];
    TotalsColumnSumsCategories(front);
    SumExchange(front, TotalsField);
    ColumnPrefixMatchesAggregate(front, agg, TotalsField);
    assert RowAddsUp(agg);
    VerticalOkIffColumnAddsUp(rows, TotalsField);
  }
}
